=== FILE: README.md ===
# EthioPulse page logic and class-chat relay, in Dafny

A model of the parts of the EthioPulse learning platform that carry rules
rather than rendering: the course catalogue filter and favourite stars
(Classes page), the study-materials filter and icon choice (Materials page),
the notification and appearance switches (Settings page), the submit logic
of the chat page in AI mode and in class mode, and the socket.io room relay
of the server that fans class messages out to a room.

Modules, one per source file or concern:

- `Json`: the untyped JavaScript objects that chat messages are. A read of
  an absent property yields `Undefined`.
- `Text`: `toLowerCase`, `includes` and `trim` on strings.
- `Seqs`: `Array.prototype.filter` and the subsequence order facts.
- `Types` and `Constants`: the records of `src/types.ts` and the mock
  catalogues of `src/constants.ts`.
- `Classes`, `Materials`, `Settings`, `Chat`: one per page.
- `Relay`: the `join-room` and `send-message` handlers of `server.ts`.
- `ClassChat`: the page and the relay together.

The relay's state is the room membership plus, per connection, the
`new-message` events emitted to it so far. Messages are objects (maps from
property name to value), so the relay's `{ ...data, id, timestamp }` is a
map update in which the relay's two fields win. `Math.random()` and the
clock are parameters. The random value enters as the base-36 digits of its
fraction, and the clock as the two strings the handlers read.

Behaviour of the code that the model keeps as written:

- In AI mode the input box is cleared only after the awaited request
  settles (`Chat.tsx`, line 57 runs after the `try/finally`). So `Submit`
  keeps the input and `Settle` clears it.
- Both chat endpoints answer a failure with status 500 and a JSON body
  `{ error }`. `fetch` does not reject on a 500, and the body parses. So the
  page appends an "EthioPulse AI" reply whose text is undefined. Only a
  rejected `fetch` or an unparsable body appends nothing.
- On the Classes page, a chosen stream keeps filtering after a grade below
  9 hides the stream chips. Choosing "Natural Science" and then "Grade 8"
  lists nothing.
- On the Materials page, the grade chips set a state that the filter never
  reads.
- Class mode never appends locally. The sender sees its own message only
  because the relay emits to the whole room (`io.to`), the sender included.

`server.ts` (line 32) answers a failure with `{ error: "Gemini API failed" }`.
The Vercel handler `api/api/chat.ts` (lines 24-28) answers with
`{ error: "Failed to fetch AI response" }`. The model relies only on neither
body having a `text` field.

## Model

| member | source | states |
|---|---|---|
| Classes.ToggleFavorite | ethiopulse---ethiopian-curriculum-learning-platform/src/pages/Classes.tsx:19-23 | Length and order are kept. Each course whose id is the given id has its star negated. Every other course, and every other field, is unchanged. |
| Classes.ToggleFavoriteTwice | ethiopulse---ethiopian-curriculum-learning-platform/src/pages/Classes.tsx:20-22 | Toggling the same id twice restores the original list. |
| Classes.ToggleFavoriteAbsent | ethiopulse---ethiopian-curriculum-learning-platform/src/pages/Classes.tsx:20-22 | Toggling an id that no course carries leaves the list unchanged. |
| Classes.FilteredCourses | ethiopulse---ethiopian-curriculum-learning-platform/src/pages/Classes.tsx:25-33 | The result is an order-preserving subsequence of the courses. Every listed course meets all five criteria (search, subject, grade, stream, favourite). A course is listed iff it meets them, and a listed course keeps every occurrence it has in the input. |
| Classes.SearchIsCaseInsensitiveOnTitleAndTeacher | ethiopulse---ethiopian-curriculum-learning-platform/src/pages/Classes.tsx:26-27 | The search verdict depends only on the lower-cased title and teacher. It ignores letter case in the query and in those fields, and ignores subject and description. |
| Classes.InitialFilterKeepsAll | ethiopulse---ethiopian-curriculum-learning-platform/src/pages/Classes.tsx:8-13 | With the opening controls (empty query, All, All, All, favourites off), every course is listed. |
| Classes.FavoritesOnlyNarrows | ethiopulse---ethiopian-curriculum-learning-platform/src/pages/Classes.tsx:31 | With favourites-only on, every listed course is a favourite. The list is a subsequence of the list with it off. |
| Classes.Enabled | ethiopulse---ethiopian-curriculum-learning-platform/src/pages/Classes.tsx:109-160 | The page offers a star only on a card that meets the filter. It offers a stream chip only while the grade choice is All or a grade of level 9 or above. |
| Classes.Apply | ethiopulse---ethiopian-curriculum-learning-platform/src/pages/Classes.tsx:46-160 | The star applies `ToggleFavorite` to the list for that id and leaves the filter alone. Search, subject, grade and stream each set their own filter field to the chosen value; the favourites button negates its flag. Each of these leaves the other four filter fields and the list unchanged. An offered chip keeps subject, grade and stream within their option lists. |
| Classes.ShowStreamFilterIffSecondary | ethiopulse---ethiopian-curriculum-learning-platform/src/pages/Classes.tsx:35 | The stream chips show iff the grade choice is All or the label of a grade whose level is 9 or above. |
| Classes.StreamCriterionAlwaysApplies | ethiopulse---ethiopian-curriculum-learning-platform/src/pages/Classes.tsx:30 | A course without a stream fails every chosen stream, whatever grade is chosen. |
| Classes.HiddenStreamStillFilters | ethiopulse---ethiopian-curriculum-learning-platform/src/pages/Classes.tsx:30-35 | The chips "Natural Science" and then "Grade 8" can both be pressed. The stream chips are then hidden, yet the list is empty, and the grade 8 course is excluded. |
| Classes.PhysicsListsOnlyC1 | ethiopulse---ethiopian-curriculum-learning-platform/src/constants.ts:28-133 | On the mock catalogue, the subject "Physics" lists exactly course c1. |
| Materials.FilteredMaterials | ethiopulse---ethiopian-curriculum-learning-platform/src/pages/Materials.tsx:34-39 | The result is an order-preserving subsequence of the catalogue. An item is listed iff its lowered title or subject contains the lowered query and the type chip is All or equals its type. A listed item keeps every occurrence it has in the catalogue. |
| Materials.EmptyQueryListsAll | ethiopulse---ethiopian-curriculum-learning-platform/src/pages/Materials.tsx:35-38 | An empty query with the All chip lists the whole catalogue. |
| Materials.GradeChipsNeverChangeTheList | ethiopulse---ethiopian-curriculum-learning-platform/src/pages/Materials.tsx:27-39 | A grade chip records its grade, and the list is the same before and after. |
| Materials.Enabled | ethiopulse---ethiopian-curriculum-learning-platform/src/pages/Materials.tsx:92-115 | No offered type chip selects "link". |
| Materials.Apply | ethiopulse---ethiopian-curriculum-learning-platform/src/pages/Materials.tsx:78-115 | The search box sets the query to the typed text, a type chip sets the selected type to its type, and a grade chip sets the selected grade to its grade. Each control leaves the other two fields unchanged. An offered type chip keeps the selected type among All, pdf, video and note. |
| Materials.SelectedTypeIsAChip | ethiopulse---ethiopian-curriculum-learning-platform/src/pages/Materials.tsx:92-95 | Under any sequence of chip presses, the selected type stays one of All, pdf, video or note. |
| Materials.LinksOnlyUnderAll | ethiopulse---ethiopian-curriculum-learning-platform/src/pages/Materials.tsx:31-37 | In every reachable state, a listed link material implies that the All chip is selected. |
| Materials.NoteChipListsOnlyM3 | ethiopulse---ethiopian-curriculum-learning-platform/src/constants.ts:135-140 | On the mock catalogue, the "note" chip lists exactly material m3. |
| Materials.IconsDistinguishTypes | ethiopulse---ethiopian-curriculum-learning-platform/src/pages/Materials.tsx:41-48 | The four material types get four different icons. A string gets the fallback link icon iff it is not "pdf", "video" or "note". |
| Settings.ToggleNotification | ethiopulse---ethiopian-curriculum-learning-platform/src/pages/Settings.tsx:26-28 | The toggled flag is negated, and the other three flags keep their values. |
| Settings.ToggleNotificationTwice | ethiopulse---ethiopian-curriculum-learning-platform/src/pages/Settings.tsx:27 | Toggling a flag twice restores the record. |
| Settings.Press | ethiopulse---ethiopian-curriculum-learning-platform/src/pages/Settings.tsx:94-120 | No switch changes sms or updates. Appearance flips dark mode only. High contrast changes nothing. Exam Alerts flips email only and Study Reminders flips push only; both leave dark mode alone. |
| Settings.Shown | ethiopulse---ethiopian-curriculum-learning-platform/src/pages/Settings.tsx:98-119 | Appearance displays dark mode, Exam Alerts the email flag, Study Reminders the push flag, and High Contrast is always drawn inactive. |
| Settings.UnwiredFlagsKeepInitialValues | ethiopulse---ethiopian-curriculum-learning-platform/src/pages/Settings.tsx:18-24 | From the opening state, any sequence of presses leaves sms false and updates true. |
| Settings.PressInvertsDisplay | ethiopulse---ethiopian-curriculum-learning-platform/src/pages/Settings.tsx:98-119 | Each switch other than high contrast, when pressed, inverts the state it displays. |
| Text.TrimEmptyIffBlank | ethiopulse---ethiopian-curriculum-learning-platform/src/pages/Chat.tsx:29 | `trim()` yields the empty string iff every character is JavaScript white space. |
| Chat.Submit | ethiopulse---ethiopian-curriculum-learning-platform/src/pages/Chat.tsx:27-58 | Blank input changes nothing and sends nothing. AI mode appends one message (senderId "user", name "Student", the raw input), raises the typing flag, keeps the input and posts the input. Class mode appends nothing, clears the input and emits one send-message to the general room with the user's name and id and the text. |
| Chat.Settle | ethiopulse---ethiopian-curriculum-learning-platform/src/pages/Chat.tsx:36-57 | A parsed body appends exactly one AI reply (isAi true, "EthioPulse AI", the body's text). A rejection or a parse failure appends nothing. Either way the flag drops and the input is cleared. |
| Chat.Receive | ethiopulse---ethiopian-curriculum-learning-platform/src/pages/Chat.tsx:20-22 | An incoming message is appended at the end. The earlier messages and the rest of the state are unchanged. |
| Chat.Step | ethiopulse---ethiopian-curriculum-learning-platform/src/pages/Chat.tsx:20-82 | Typing sets the input to the typed text and leaves the tab alone. A tab button sets the tab and leaves the input alone. A submit runs `Submit` and a settled request runs `Settle`, so the flag drops once the request ends. A relayed `new-message` is appended to the end of the log. Only a submit sends anything out. Typing and tab changes leave the log and the flag alone. The log only grows at its end. |
| Chat.Mounted | ethiopulse---ethiopian-curriculum-learning-platform/src/pages/Chat.tsx:15-18 | The page emits one output per event plus one. The first is the join of "general-grade-12", and no later output is a join. |
| Chat.RunOnlySendsToGeneralRoom | ethiopulse---ethiopian-curriculum-learning-platform/src/pages/Chat.tsx:49-56 | After mount, every socket emission is a send-message addressed to "general-grade-12". |
| Chat.JoinPrecedesEverySend | ethiopulse---ethiopian-curriculum-learning-platform/src/pages/Chat.tsx:15-25 | The first emission is the join of "general-grade-12". Every send-message comes later and goes to that room. |
| Chat.LogIsAppendOnly | ethiopulse---ethiopian-curriculum-learning-platform/src/pages/Chat.tsx:20-43 | Under any sequence of events, the earlier log is a prefix of the later log. |
| Chat.AiExchange | ethiopulse---ethiopian-curriculum-learning-platform/src/pages/Chat.tsx:31-48 | The typing flag is up while the request is pending. At the end the log is the old log, then the user message, then the messages relayed meanwhile, then one reply if the body parsed. The flag is then down and the input empty. |
| Chat.ErrorBodyStillAppendsReply | ethiopulse---ethiopian-curriculum-learning-platform/server.ts:30-33 | An error body without `text` still appends an AI reply, and that reply's text is undefined. |
| Relay.Join | ethiopulse---ethiopian-curriculum-learning-platform/server.ts:38-40 | The connection joins exactly the named room, without validation. Other rooms and emitted events are unchanged. |
| Relay.JoinIsIdempotent | ethiopulse---ethiopian-curriculum-learning-platform/server.ts:38-40 | Joining the same room twice is the same as joining it once (membership is a set). |
| Relay.GenerateId | ethiopulse---ethiopian-curriculum-learning-platform/server.ts:45 | The id has at most nine characters, all in [0-9a-z]. It is the first nine base-36 digits of the random fraction. |
| Relay.BuildMessage | ethiopulse---ethiopian-curriculum-learning-platform/server.ts:43-47 | Every payload field other than id and timestamp is copied unchanged. id and timestamp are the relay's, whatever the client sent. |
| Relay.Send | ethiopulse---ethiopian-curriculum-learning-platform/server.ts:42-48 | Every member of data.room receives exactly one new-message, and no other connection receives anything. Membership is unchanged. |
| Relay.SendToEmptyRoomIsNoOp | ethiopulse---ethiopian-curriculum-learning-platform/server.ts:43 | A send to a room with no members leaves the relay state unchanged. |
| Relay.SenderReceivesEcho | ethiopulse---ethiopian-curriculum-learning-platform/server.ts:43 | A sender that is in the room receives its own message once, with its payload fields and the relay's id and timestamp. |
| Relay.TwoMembersAndABystander | ethiopulse---ethiopian-curriculum-learning-platform/server.ts:38-48 | C1 and C2 join "physics-101" and C1 sends "Hello" as Ada. Both receive it with that text, name and the timestamp, and C3 receives nothing. |
| ClassChat.Deliver | ethiopulse---ethiopian-curriculum-learning-platform/server.ts:37-48 | Dispatching one emission of the page adds at most one event to each connection's emitted events and keeps the earlier ones. A join is `Relay.Join`: it makes the connection a member of exactly the named room and emits nothing. A send leaves membership unchanged, appends the relayed message (payload plus generated id and timestamp) to the events of every member of `data.room`, and leaves every non-member's events unchanged. |
| ClassChat.SenderSeesOwnMessageThroughEcho | ethiopulse---ethiopian-curriculum-learning-platform/src/pages/Chat.tsx:49-56 | A mounted page submits in class mode. The submit appends nothing, and the relay echoes the message to the sender. Once handled, the log ends with a message carrying the typed text, the user's name and id, the room, and the relay's id and timestamp. |

## Left out

- Rendering: all JSX, styling, animations and charts, including the pages `Home.tsx`, `Quizzes.tsx` and `Profile.tsx`. They only display constants.
- Routing and navigation (`App.tsx`, `MainLayout.tsx`): presentation only.
- The AI proxies (`server.ts` lines 23-34, `api/api/chat.ts`): each is one call into a generative-AI library this model cannot see. The page sees only their outcome (`Chat.AiOutcome`). Their error bodies are used only for having no `text` field.
- The socket.io transport: connection, disconnection and the cleanup on unmount (`Chat.tsx` line 24). Membership is an abstract set of connection ids. That a repeated join is a no-op is a property of this set model, not of the library.
- `Math.random` and `Date`: both are parameters.
- Materials page: the view-mode switch, the preview modal and the bookmark display. They are rendering state that the filter never reads.
- Settings page: the items that only display text or a chevron (profile, language, password, two-factor, deactivate). None of them has a handler.
- Text.Lower: only ASCII letters are lower-cased, not full Unicode `toLowerCase`.
- Json.Value: numbers are integers, and arrays and nested objects are not modelled. The pages only put strings and booleans in messages.
- Relay.Send: a `send-message` payload is taken to be an object. In `server.ts` (line 43), a missing or `null` payload makes `data.room` throw inside the handler, so nothing is emitted. A string payload is spread into index-named fields. The page (`Chat.tsx`, lines 50-55) only ever sends an object.
- Relay.Join: socket.io also puts every connection in a room named by its own socket id. The model leaves those rooms out, so `Relay.Empty` is not the membership of the connected sockets. A send whose `room` is another socket's id would reach that socket.
- Chat: `console.error` in the catch branch is not modelled. The page's imports `./constants` and `./utils` do not resolve from `src/pages`. The model takes `MOCK_USER` to be the one in `src/constants.ts`.
- Chat: the model does not pair an `AiSettled` event with its request. With two requests pending, whichever settles first lowers the flag and clears the input, as in the page. A trace may also settle a request that was never made.

=== FILE: chat.dfy ===
/** The chat page (src/pages/Chat.tsx). Its state is the active tab, the
    input box, the message log and the "AI is thinking" flag. The socket and
    the HTTP request are outside the page: what the page sends out is an
    `Output`, and what comes back (an AI response, a relayed message) is an
    event the page reacts to. */
module Chat {
  import opened Json
  import opened Text
  import Constants

  /** The one room the page uses. */
  const GeneralRoom := "general-grade-12"
  const UserSenderId := "user"
  const StudentName := "Student"
  const AiName := "EthioPulse AI"

  datatype Tab = AiTab | ClassTab

  datatype ChatState = ChatState(tab: Tab, input: string, messages: seq<Object>, isTyping: bool)

  const InitialState := ChatState(AiTab, "", [], false)

  /** The clock readings a handler takes: `Date.now().toString()` and
      `new Date().toISOString()`. */
  datatype Clock = Clock(millis: string, iso: string)

  /** Socket emissions of the page. */
  datatype Emit = JoinRoom(room: Value) | SendMessage(data: Object)

  /** What one handler sends out: nothing, a socket emission, or a
      `POST /api/chat` with the prompt. */
  datatype Output = Nothing | Emitted(emit: Emit) | Posted(prompt: string)

  /** How the awaited request ends: `fetch` rejects, `response.json()`
      throws, or the body parses (whatever the HTTP status). */
  datatype AiOutcome = FetchRejected | BodyNotJson | Parsed(body: Object)

  /** The submit guard `!inputText.trim()`. */
  predicate IsBlank(input: string)
  {
    Trim(input) == []
  }

  function UserMessage(text: string, clock: Clock): (m: Object)
    ensures Get(m, "senderId") == Str(UserSenderId) && Get(m, "senderName") == Str(StudentName)
    ensures Get(m, "text") == Str(text)
  {
    map["id" := Str(clock.millis), "senderName" := Str(StudentName), "text" := Str(text),
        "senderId" := Str(UserSenderId), "timestamp" := Str(clock.iso)]
  }

  function AiReply(text: Value, clock: Clock): (m: Object)
    ensures Get(m, "isAi") == Bool(true) && Get(m, "senderName") == Str(AiName)
    ensures Get(m, "text") == text
  {
    map["id" := Str(clock.millis), "senderName" := Str(AiName), "text" := text,
        "isAi" := Bool(true), "timestamp" := Str(clock.iso)]
  }

  function ClassPayload(text: string): (m: Object)
    ensures Get(m, "room") == Str(GeneralRoom) && Get(m, "senderId") == Str(UserSenderId)
    ensures Get(m, "senderName") == Str(Constants.MockUser.name) && Get(m, "text") == Str(text)
  {
    map["room" := Str(GeneralRoom), "senderName" := Str(Constants.MockUser.name),
        "text" := Str(text), "senderId" := Str(UserSenderId)]
  }

  datatype Reaction = Reaction(state: ChatState, output: Output)

  /** The synchronous part of `handleSubmit`. A blank input is ignored. In
      AI mode the user's message is appended, the flag is raised and the
      prompt is posted; the input is kept until the request settles. In
      class mode one `send-message` goes out, nothing is appended, and the
      input is cleared. */
  function Submit(s: ChatState, clock: Clock): (r: Reaction)
    ensures IsBlank(s.input) ==> r == Reaction(s, Nothing)
    ensures !IsBlank(s.input) && s.tab == AiTab ==>
      && |r.state.messages| == |s.messages| + 1
      && r.state.messages[..|s.messages|] == s.messages
      && Get(r.state.messages[|s.messages|], "senderId") == Str(UserSenderId)
      && Get(r.state.messages[|s.messages|], "senderName") == Str(StudentName)
      && Get(r.state.messages[|s.messages|], "text") == Str(s.input)
      && r.state.isTyping && r.state.input == s.input
      && r.output == Posted(s.input)
    ensures !IsBlank(s.input) && s.tab == ClassTab ==>
      && r.state.messages == s.messages
      && r.state.input == ""
      && r.state.isTyping == s.isTyping
      && r.output.Emitted? && r.output.emit.SendMessage?
      && Get(r.output.emit.data, "room") == Str(GeneralRoom)
      && Get(r.output.emit.data, "senderName") == Str(Constants.MockUser.name)
      && Get(r.output.emit.data, "senderId") == Str(UserSenderId)
      && Get(r.output.emit.data, "text") == Str(s.input)
    ensures r.state.tab == s.tab
  {
    if IsBlank(s.input) then Reaction(s, Nothing)
    else if s.tab == AiTab then
      Reaction(s.(messages := s.messages + [UserMessage(s.input, clock)], isTyping := true),
               Posted(s.input))
    else
      Reaction(s.(input := ""), Emitted(SendMessage(ClassPayload(s.input))))
  }

  /** The rest of `handleSubmit` in AI mode, once the request settles:
      a parsed body appends exactly one AI reply carrying the body's `text`
      (absent in an error body); a rejection or a parse failure appends
      nothing. Either way the flag drops and the input is cleared. */
  function Settle(s: ChatState, outcome: AiOutcome, clock: Clock): (r: ChatState)
    ensures !r.isTyping && r.input == "" && r.tab == s.tab
    ensures outcome.Parsed? ==>
      && |r.messages| == |s.messages| + 1
      && r.messages[..|s.messages|] == s.messages
      && Get(r.messages[|s.messages|], "isAi") == Bool(true)
      && Get(r.messages[|s.messages|], "senderName") == Str(AiName)
      && Get(r.messages[|s.messages|], "text") == Get(outcome.body, "text")
    ensures !outcome.Parsed? ==> r.messages == s.messages
  {
    var messages := if outcome.Parsed? then s.messages + [AiReply(Get(outcome.body, "text"), clock)]
                    else s.messages;
    s.(messages := messages, isTyping := false, input := "")
  }

  /** The `new-message` handler: the message goes to the end of the log. */
  function Receive(s: ChatState, msg: Object): (r: ChatState)
    ensures |r.messages| == |s.messages| + 1
    ensures r.messages[..|s.messages|] == s.messages && r.messages[|s.messages|] == msg
    ensures r.(messages := s.messages) == s
  {
    s.(messages := s.messages + [msg])
  }

  /** Everything that can happen to the page after it mounts. */
  datatype ChatEvent =
    | Typed(text: string)
    | TabChosen(tab: Tab)
    | SubmitPressed(clock: Clock)
    | AiSettled(outcome: AiOutcome, clock: Clock)
    | NewMessage(msg: Object)

  /** One handler run. Typing sets only the input, a tab button sets only
      the tab, a submit runs `Submit`, a settled request runs `Settle`, and a
      relayed message goes to the end of the log; only a submit sends
      anything out; typing and tab changes leave the log and the flag alone;
      the log only grows at its end. */
  function Step(s: ChatState, e: ChatEvent): (r: Reaction)
    ensures !e.SubmitPressed? ==> r.output == Nothing
    ensures e.Typed? || e.TabChosen? ==> r.state.messages == s.messages && r.state.isTyping == s.isTyping
    ensures |s.messages| <= |r.state.messages| && r.state.messages[..|s.messages|] == s.messages
    ensures e.Typed? ==> r.state.input == e.text && r.state.tab == s.tab
    ensures e.TabChosen? ==> r.state.tab == e.tab && r.state.input == s.input
    ensures e.SubmitPressed? ==> r == Submit(s, e.clock)
    ensures e.AiSettled? ==> r == Reaction(Settle(s, e.outcome, e.clock), Nothing)
    ensures e.NewMessage? ==> r.state.messages == s.messages + [e.msg]
  {
    match e
    case Typed(t) => Reaction(s.(input := t), Nothing)
    case TabChosen(t) => Reaction(s.(tab := t), Nothing)
    case SubmitPressed(clock) => Submit(s, clock)
    case AiSettled(outcome, clock) => Reaction(Settle(s, outcome, clock), Nothing)
    case NewMessage(msg) => Reaction(Receive(s, msg), Nothing)
  }

  datatype Session = Session(state: ChatState, outputs: seq<Output>)

  function Run(s: ChatState, events: seq<ChatEvent>): Session
    decreases |events|
  {
    if events == [] then Session(s, [])
    else
      var r := Step(s, events[0]);
      var rest := Run(r.state, events[1..]);
      Session(rest.state, [r.output] + rest.outputs)
  }

  /** The page from mount: it joins the general room, then handles the events. */
  function Mounted(events: seq<ChatEvent>): (r: Session)
    ensures |r.outputs| == |events| + 1
    ensures r.outputs[0] == Emitted(JoinRoom(Str(GeneralRoom)))
    ensures forall i :: 1 <= i < |r.outputs| ==> !(r.outputs[i].Emitted? && r.outputs[i].emit.JoinRoom?)
  {
    RunOnlySendsToGeneralRoom(InitialState, events);
    RunOutputsOnePerEvent(InitialState, events);
    var run := Run(InitialState, events);
    Session(run.state, [Emitted(JoinRoom(Str(GeneralRoom)))] + run.outputs)
  }

  lemma {:induction false} RunOutputsOnePerEvent(s: ChatState, events: seq<ChatEvent>)
    ensures |Run(s, events).outputs| == |events|
    decreases |events|
  {
    if events != [] {
      RunOutputsOnePerEvent(Step(s, events[0]).state, events[1..]);
    }
  }

  /** After mount the page never joins again, and every message it emits
      is addressed to the general room. */
  lemma {:induction false} RunOnlySendsToGeneralRoom(s: ChatState, events: seq<ChatEvent>)
    ensures forall i :: 0 <= i < |Run(s, events).outputs| && Run(s, events).outputs[i].Emitted? ==>
      && Run(s, events).outputs[i].emit.SendMessage?
      && Get(Run(s, events).outputs[i].emit.data, "room") == Str(GeneralRoom)
    decreases |events|
  {
    if events != [] {
      RunOnlySendsToGeneralRoom(Step(s, events[0]).state, events[1..]);
    }
  }

  /** The first thing the page sends is the join of the general room, and
      every `send-message` comes after it and goes to that room. */
  lemma JoinPrecedesEverySend(events: seq<ChatEvent>)
    ensures Mounted(events).outputs[0] == Emitted(JoinRoom(Str(GeneralRoom)))
    ensures forall i ::
      (0 <= i < |Mounted(events).outputs| && Mounted(events).outputs[i].Emitted?
        && Mounted(events).outputs[i].emit.SendMessage?) ==>
        0 < i && Get(Mounted(events).outputs[i].emit.data, "room") == Str(GeneralRoom)
  {
    RunOnlySendsToGeneralRoom(InitialState, events);
    var outs := Run(InitialState, events).outputs;
    assert forall i :: 1 <= i < |Mounted(events).outputs| ==> Mounted(events).outputs[i] == outs[i - 1];
  }

  /** The log only grows at its end: whatever happens, the earlier
      messages stay in place. */
  lemma {:induction false} LogIsAppendOnly(s: ChatState, events: seq<ChatEvent>)
    ensures |s.messages| <= |Run(s, events).state.messages|
    ensures Run(s, events).state.messages[..|s.messages|] == s.messages
    decreases |events|
  {
    if events != [] {
      var next := Step(s, events[0]).state;
      LogIsAppendOnly(next, events[1..]);
      assert |s.messages| <= |next.messages| && next.messages[..|s.messages|] == s.messages;
      var final := Run(s, events).state.messages;
      assert final[..|next.messages|] == next.messages;
      assert final[..|s.messages|] == next.messages[..|s.messages|];
    }
  }

  function ReceiveAll(s: ChatState, msgs: seq<Object>): ChatState
    decreases |msgs|
  {
    if msgs == [] then s else ReceiveAll(Receive(s, msgs[0]), msgs[1..])
  }

  lemma {:induction false} ReceiveAllAppends(s: ChatState, msgs: seq<Object>)
    ensures ReceiveAll(s, msgs) == s.(messages := s.messages + msgs)
    decreases |msgs|
  {
    if msgs != [] {
      ReceiveAllAppends(Receive(s, msgs[0]), msgs[1..]);
      assert s.messages + [msgs[0]] + msgs[1..] == s.messages + msgs;
    }
  }

  /** An AI exchange, with relayed messages arriving while it is pending:
      the flag is up while the request is out; when it settles the log is
      the old log, the user's message, the messages that arrived meanwhile
      and, if the body parsed, one reply; the flag is down and the input empty. */
  lemma AiExchange(s: ChatState, c1: Clock, meanwhile: seq<Object>, outcome: AiOutcome, c2: Clock)
    requires s.tab == AiTab && !IsBlank(s.input)
    ensures Submit(s, c1).state.isTyping
    ensures var pending := ReceiveAll(Submit(s, c1).state, meanwhile);
      var done := Settle(pending, outcome, c2);
      && pending.isTyping
      && !done.isTyping && done.input == ""
      && done.messages == s.messages + [UserMessage(s.input, c1)] + meanwhile
           + (if outcome.Parsed? then [AiReply(Get(outcome.body, "text"), c2)] else [])
  {
    ReceiveAllAppends(Submit(s, c1).state, meanwhile);
  }

  /** Both chat endpoints answer a failure with status 500 and a JSON body
      holding only `error`. Such a body parses, so the page appends an AI
      reply whose text is undefined. */
  lemma ErrorBodyStillAppendsReply(s: ChatState, body: Object, clock: Clock)
    requires "text" !in body
    ensures var r := Settle(s, Parsed(body), clock);
      |r.messages| == |s.messages| + 1 && Get(r.messages[|s.messages|], "text") == Undefined
  {
  }
}

=== FILE: class_chat.dfy ===
/** The class chat end to end: the page (src/pages/Chat.tsx) talking to the
    relay (server.ts) over one connection. Because class mode appends
    nothing locally, the sender's own message reaches its log only as the
    relay's echo, which the relay sends because it emits to the whole room. */
module ClassChat {
  import opened Json
  import opened Chat
  import opened Relay
  import Constants

  /** The relay's reaction to one emission of the page on connection `c`:
      a join adds `c` to exactly the named room and emits nothing; a send delivers one message to every
      member of `data.room` and to no one else. */
  function Deliver(r: RelayState, c: ConnId, e: Emit, digits: string, timestamp: string): (r': RelayState)
    requires forall i :: 0 <= i < |digits| ==> IsBase36Digit(digits[i])
    ensures forall d :: |Inbox(r, d)| <= |Inbox(r', d)| <= |Inbox(r, d)| + 1
    ensures forall d :: Inbox(r', d)[..|Inbox(r, d)|] == Inbox(r, d)
    ensures e.JoinRoom? ==> c in Members(r', e.room) && r' == Join(r, c, e.room)
    ensures e.SendMessage? ==> r'.rooms == r.rooms
    ensures e.SendMessage? ==> forall d :: d in Members(r, Get(e.data, "room")) ==>
      Inbox(r', d) == Inbox(r, d) + [BuildMessage(e.data, GenerateId(digits), timestamp)]
    ensures e.SendMessage? ==> forall d :: d !in Members(r, Get(e.data, "room")) ==> Inbox(r', d) == Inbox(r, d)
  {
    match e
    case JoinRoom(room) => Join(r, c, room)
    case SendMessage(data) => Send(r, c, data, digits, timestamp)
  }

  /** A page that has mounted on connection `c` and submits a non-blank
      line in class mode: the submit itself appends nothing; the relay
      echoes the message to `c`; once the page handles the echo, its log
      ends with a message carrying the typed text, the user's name and id,
      and the relay's id and timestamp. */
  lemma SenderSeesOwnMessageThroughEcho(
    r: RelayState, c: ConnId, s: ChatState, clock: Clock, digits: string, timestamp: string)
    requires forall i :: 0 <= i < |digits| ==> IsBase36Digit(digits[i])
    requires s.tab == ClassTab && !IsBlank(s.input)
    ensures var joined := Deliver(r, c, Mounted([]).outputs[0].emit, "", "");
      var sub := Submit(s, clock);
      && sub.state.messages == s.messages
      && sub.output.Emitted?
      && var r' := Deliver(joined, c, sub.output.emit, digits, timestamp);
         && |Inbox(r', c)| == |Inbox(joined, c)| + 1
         && var echo := Inbox(r', c)[|Inbox(joined, c)|];
            var after := Receive(sub.state, echo);
            && after.messages == s.messages + [echo]
            && Get(echo, "text") == Str(s.input)
            && Get(echo, "senderName") == Str(Constants.MockUser.name)
            && Get(echo, "senderId") == Str(UserSenderId)
            && Get(echo, "room") == Str(GeneralRoom)
            && Get(echo, "id") == Str(GenerateId(digits))
            && Get(echo, "timestamp") == Str(timestamp)
  {
  }
}

=== FILE: classes.dfy ===
/** The course catalogue page (src/pages/Classes.tsx): five filter
    controls over the course list, the favourite star on each card, and the
    rule that decides whether the stream chips are shown. */
module Classes {
  import opened Types
  import opened Text
  import opened Seqs
  import Constants

  /** The chip value that disables a criterion. */
  const All := "All"

  const SubjectOptions: seq<string> := [All, "Physics", "Mathematics", "English", "Civics",
    "Amharic", "Chemistry", "Biology", "Science", "Environmental Science"]
  const GradeOptions: seq<string> := [All, "KG", "Grade 1", "Grade 2", "Grade 3", "Grade 4",
    "Grade 5", "Grade 6", "Grade 7", "Grade 8", "Grade 9", "Grade 10", "Grade 11", "Grade 12"]
  const StreamOptions: seq<string> := [All, "Natural Science", "Social Science", "General", "TVET"]

  /** The grades for which the stream chips are rendered. */
  const SecondaryGradeLabels: seq<string> := ["Grade 9", "Grade 10", "Grade 11", "Grade 12"]

  /** The state of the filter controls. */
  datatype CourseFilter = CourseFilter(
    searchQuery: string,
    subject: string,
    grade: string,
    stream: string,
    favoritesOnly: bool)

  const InitialFilter := CourseFilter("", All, All, All, false)

  // ---------------------------------------------------------------- favourites

  function FlipIfId(c: Course, id: string): Course
  {
    if c.id == id then c.(isFavorite := !c.isFavorite) else c
  }

  /** `toggleFavorite(id)`: every course whose id is `id` has its star
      flipped; every other field and every other course stays as it was. */
  function ToggleFavorite(courses: seq<Course>, id: string): (r: seq<Course>)
    ensures |r| == |courses|
    ensures forall i :: 0 <= i < |r| ==> r[i].(isFavorite := courses[i].isFavorite) == courses[i]
    ensures forall i :: 0 <= i < |r| ==>
      (r[i].isFavorite <==> (if courses[i].id == id then !courses[i].isFavorite else courses[i].isFavorite))
  {
    seq(|courses|, i requires 0 <= i < |courses| => FlipIfId(courses[i], id))
  }

  /** Pressing the same star twice restores the list. */
  lemma ToggleFavoriteTwice(courses: seq<Course>, id: string)
    ensures ToggleFavorite(ToggleFavorite(courses, id), id) == courses
  {
  }

  /** An id no course carries changes nothing. */
  lemma ToggleFavoriteAbsent(courses: seq<Course>, id: string)
    requires forall i :: 0 <= i < |courses| ==> courses[i].id != id
    ensures ToggleFavorite(courses, id) == courses
  {
  }

  // ---------------------------------------------------------------- filtering

  /** The search box: a case-insensitive substring match on the title or the teacher. */
  predicate MatchesSearch(c: Course, query: string)
  {
    Contains(Lower(c.title), Lower(query)) || Contains(Lower(c.teacher), Lower(query))
  }

  /** The five criteria of `filteredCourses`, all required. A course
      without a stream never equals a chosen stream. */
  predicate Matches(f: CourseFilter, c: Course)
  {
    && MatchesSearch(c, f.searchQuery)
    && (f.subject == All || c.subject == f.subject)
    && (f.grade == All || c.grade.Label() == f.grade)
    && (f.stream == All || (c.stream.Some? && c.stream.value.Label() == f.stream))
    && (!f.favoritesOnly || c.isFavorite)
  }

  function Keep(f: CourseFilter): Course -> bool
  {
    c => Matches(f, c)
  }

  /** `filteredCourses`: the courses meeting every criterion, in catalogue
      order, and none that fails one. */
  function FilteredCourses(courses: seq<Course>, f: CourseFilter): (r: seq<Course>)
    ensures IsSubsequence(r, courses)
    ensures forall i :: 0 <= i < |r| ==> Matches(f, r[i])
    ensures forall i :: 0 <= i < |courses| ==> (courses[i] in r <==> Matches(f, courses[i]))
    ensures forall c :: Matches(f, c) ==> multiset(r)[c] == multiset(courses)[c]
  {
    FilterIsSubsequence(Keep(f), courses);
    FilterKeepsMultiplicity(Keep(f), courses);
    Filter(Keep(f), courses)
  }

  /** The search ignores the subject, the description and every other
      field but title and teacher, and it ignores letter case in the query
      and in those two fields. */
  lemma SearchIsCaseInsensitiveOnTitleAndTeacher(c: Course, d: Course, query: string)
    requires Lower(d.title) == Lower(c.title) && Lower(d.teacher) == Lower(c.teacher)
    ensures MatchesSearch(d, query) <==> MatchesSearch(c, query)
    ensures MatchesSearch(c, Lower(query)) <==> MatchesSearch(c, query)
    ensures MatchesSearch(c.(title := Lower(c.title), teacher := Lower(c.teacher)), query)
        <==> MatchesSearch(c, query)
  {
    LowerIsIdempotent(query);
    LowerIsIdempotent(c.title);
    LowerIsIdempotent(c.teacher);
  }

  /** With the controls as the page opens, every course is listed. */
  lemma InitialFilterKeepsAll(courses: seq<Course>)
    ensures FilteredCourses(courses, InitialFilter) == courses
  {
    forall i | 0 <= i < |courses|
      ensures Keep(InitialFilter)(courses[i])
    {
      ContainsEmpty(Lower(courses[i].title));
    }
    FilterKeepsAll(Keep(InitialFilter), courses);
  }

  /** The star button: with it on, every listed course is a favourite, and
      switching it on only ever removes courses from the list. */
  lemma FavoritesOnlyNarrows(courses: seq<Course>, f: CourseFilter)
    ensures forall c :: c in FilteredCourses(courses, f.(favoritesOnly := true)) ==> c.isFavorite
    ensures IsSubsequence(FilteredCourses(courses, f.(favoritesOnly := true)),
                          FilteredCourses(courses, f.(favoritesOnly := false)))
  {
    var on, off := f.(favoritesOnly := true), f.(favoritesOnly := false);
    assert forall c :: Keep(on)(c) ==> Keep(off)(c);
    FilterMonotone(Keep(on), Keep(off), courses);
  }

  // ---------------------------------------------------------------- stream chips

  /** `showStreamFilter`. */
  function ShowStreamFilter(grade: string): bool
  {
    grade == All || grade in SecondaryGradeLabels
  }

  /** The stream chips are shown exactly when no grade is chosen or the
      chosen grade is grade 9 or above. */
  lemma ShowStreamFilterIffSecondary(grade: string)
    ensures ShowStreamFilter(grade) <==>
      grade == All || exists g: Grade :: g.Label() == grade && g.Level() >= 9
  {
    if grade in SecondaryGradeLabels {
      var g := if grade == "Grade 9" then G9 else if grade == "Grade 10" then G10
        else if grade == "Grade 11" then G11 else G12;
      assert g.Label() == grade;
    }
  }

  // ---------------------------------------------------------------- the page

  datatype ClassesPage = ClassesPage(courses: seq<Course>, filter: CourseFilter)

  const InitialPage := ClassesPage(Constants.MockCourses, InitialFilter)

  /** What the user can do on the page. */
  datatype ClassesAction =
    | StarPressed(id: string)
    | SearchTyped(query: string)
    | SubjectChosen(subject: string)
    | GradeChosen(grade: string)
    | StreamChosen(stream: string)
    | FavoritesPressed

  /** The controls the rendered page offers: a star only on a listed card,
      chips only from the option lists, stream chips only while shown. */
  predicate Enabled(page: ClassesPage, a: ClassesAction): (b: bool)
    ensures b && a.StarPressed? ==>
      exists i :: 0 <= i < |page.courses| && page.courses[i].id == a.id && Matches(page.filter, page.courses[i])
    ensures b && a.StreamChosen? ==>
      page.filter.grade == All || exists g: Grade :: g.Label() == page.filter.grade && g.Level() >= 9
  {
    ShowStreamFilterIffSecondary(page.filter.grade);
    match a
    case StarPressed(id) => exists c :: c in FilteredCourses(page.courses, page.filter) && c.id == id
    case SearchTyped(_) => true
    case SubjectChosen(s) => s in SubjectOptions
    case GradeChosen(g) => g in GradeOptions
    case StreamChosen(s) => ShowStreamFilter(page.filter.grade) && s in StreamOptions
    case FavoritesPressed => true
  }

  /** The controls' selections stay within their option lists. */
  predicate ChoicesAreOptions(f: CourseFilter)
  {
    f.subject in SubjectOptions && f.grade in GradeOptions && f.stream in StreamOptions
  }

  /** The handlers of the page: the star toggles that course in the list
      and leaves the filter alone; every other control sets its own filter
      field to the chosen value (the favourites button flips it), leaves the
      other fields and the list alone, and an offered chip keeps the
      selections within the option lists. */
  function Apply(page: ClassesPage, a: ClassesAction): (r: ClassesPage)
    ensures a.StarPressed? ==> r.filter == page.filter && r.courses == ToggleFavorite(page.courses, a.id)
    ensures !a.StarPressed? ==> r.courses == page.courses
    ensures a.SearchTyped? ==> r.filter == CourseFilter(a.query, page.filter.subject,
      page.filter.grade, page.filter.stream, page.filter.favoritesOnly)
    ensures a.SubjectChosen? ==> r.filter == CourseFilter(page.filter.searchQuery, a.subject,
      page.filter.grade, page.filter.stream, page.filter.favoritesOnly)
    ensures a.GradeChosen? ==> r.filter == CourseFilter(page.filter.searchQuery, page.filter.subject,
      a.grade, page.filter.stream, page.filter.favoritesOnly)
    ensures a.StreamChosen? ==> r.filter == CourseFilter(page.filter.searchQuery, page.filter.subject,
      page.filter.grade, a.stream, page.filter.favoritesOnly)
    ensures a.FavoritesPressed? ==> r.filter == CourseFilter(page.filter.searchQuery, page.filter.subject,
      page.filter.grade, page.filter.stream, !page.filter.favoritesOnly)
    ensures Enabled(page, a) && ChoicesAreOptions(page.filter) ==> ChoicesAreOptions(r.filter)
  {
    match a
    case StarPressed(id) => page.(courses := ToggleFavorite(page.courses, id))
    case SearchTyped(q) => page.(filter := page.filter.(searchQuery := q))
    case SubjectChosen(s) => page.(filter := page.filter.(subject := s))
    case GradeChosen(g) => page.(filter := page.filter.(grade := g))
    case StreamChosen(s) => page.(filter := page.filter.(stream := s))
    case FavoritesPressed => page.(filter := page.filter.(favoritesOnly := !page.filter.favoritesOnly))
  }

  /** A course without a stream is excluded by every chosen stream, and
      the stream criterion is applied whether or not its chips are shown. */
  lemma StreamCriterionAlwaysApplies(f: CourseFilter, c: Course)
    requires f.stream != All && c.stream.None?
    ensures !Matches(f, c)
    ensures !Matches(f.(grade := All), c)
  {
  }

  /** Choosing "Natural Science" and then "Grade 8" hides the stream chips
      but keeps their effect: the grade 8 course, which has no stream, is
      not listed, and the list is empty. */
  lemma HiddenStreamStillFilters()
    ensures var p1 := Apply(InitialPage, StreamChosen("Natural Science"));
      var p2 := Apply(p1, GradeChosen("Grade 8"));
      && Enabled(InitialPage, StreamChosen("Natural Science"))
      && Enabled(p1, GradeChosen("Grade 8"))
      && !ShowStreamFilter(p2.filter.grade)
      && Constants.C6 in p2.courses && Constants.C6.grade.Label() == p2.filter.grade
      && FilteredCourses(p2.courses, p2.filter) == []
  {
    var p1 := Apply(InitialPage, StreamChosen("Natural Science"));
    var p2 := Apply(p1, GradeChosen("Grade 8"));
    NaturalScienceThenGrade8();
    NaturalScienceGrade8ListsNothing();
    C6IsAGrade8Course();
  }

  const NaturalScienceGrade8 := CourseFilter("", All, "Grade 8", "Natural Science", false)

  /** The catalogue's grade 8 course, which has no stream. */
  lemma C6IsAGrade8Course()
    ensures Constants.C6 in Constants.MockCourses && Constants.C6.stream.None?
    ensures Constants.C6.grade.Label() == NaturalScienceGrade8.grade
    ensures !ShowStreamFilter(NaturalScienceGrade8.grade)
  {
    assert Constants.MockCourses[5] == Constants.C6;
  }

  /** The two chips are offered in turn and lead to `NaturalScienceGrade8`. */
  lemma NaturalScienceThenGrade8()
    ensures var p1 := Apply(InitialPage, StreamChosen("Natural Science"));
      && Enabled(InitialPage, StreamChosen("Natural Science"))
      && Enabled(p1, GradeChosen("Grade 8"))
      && Apply(p1, GradeChosen("Grade 8")) == ClassesPage(Constants.MockCourses, NaturalScienceGrade8)
  {
    assert StreamOptions[1] == "Natural Science";
    assert GradeOptions[9] == "Grade 8";
  }

  lemma NaturalScienceGrade8ListsNothing()
    ensures FilteredCourses(Constants.MockCourses, NaturalScienceGrade8) == []
  {
    var cs := Constants.MockCourses;
    forall i | 0 <= i < |cs|
      ensures !Keep(NaturalScienceGrade8)(cs[i])
    {
    }
    FilterKeepsNone(Keep(NaturalScienceGrade8), cs);
  }

  /** Choosing the subject "Physics" on the mock catalogue lists only c1. */
  lemma PhysicsListsOnlyC1()
    ensures FilteredCourses(Constants.MockCourses, InitialFilter.(subject := "Physics")) == [Constants.C1]
  {
    var f := InitialFilter.(subject := "Physics");
    var cs := Constants.MockCourses;
    ContainsEmpty(Lower(Constants.C1.title));
    assert Keep(f)(cs[0]);
    forall i | 0 <= i < |cs[1..]|
      ensures !Keep(f)(cs[1..][i])
    {
    }
    FilterKeepsNone(Keep(f), cs[1..]);
  }
}

=== FILE: constants.dfy ===
/** The mock catalogues of src/constants.ts, used as concrete inputs. */
module Constants {
  import opened Types

  const MockUser := User("u1", "Abebe Bikila", "abebe.bikila@ethiopulse.edu.et",
    G12, Some(NaturalScience), English, 1250, ["c1", "c2", "c3"])

  const PhysicsUnits := [
    Unit("u1-1", "Unit 1: Electromagnetism", [
      Lesson("l1-1-1", "Electric Fields", ["Define electric field", "Calculate field strength"], ["m1"], true),
      Lesson("l1-1-2", "Magnetic Induction", ["Explain Faraday's Law"], [], true)
    ], true),
    Unit("u1-2", "Unit 2: Quantum Mechanics", [
      Lesson("l1-2-1", "Photoelectric Effect", ["Describe the effect"], [], false)
    ], false)
  ]

  const C1 := Course("c1", "Grade 12 Physics", "Dr. Kassahun Tadesse",
    "https://picsum.photos/seed/physics/400/250", 65, "Physics", G12, Some(NaturalScience), true,
    "Advanced physics topics including electromagnetism and quantum mechanics for Grade 12 students.",
    PhysicsUnits)
  const C2 := Course("c2", "Grade 12 Mathematics", "Prof. Almaz Ayana",
    "https://picsum.photos/seed/math/400/250", 40, "Mathematics", G12, Some(NaturalScience), false,
    "Comprehensive mathematics covering calculus, vectors, and statistics for national exams.", [])
  const C3 := Course("c3", "Grade 12 English", "Ms. Tigist Assefa",
    "https://picsum.photos/seed/english/400/250", 85, "English", G12, None, true,
    "English language proficiency and literature analysis for Grade 12.", [])
  const C4 := Course("c4", "Grade 12 Civics & Ethics", "Mr. Haile Gebrselassie",
    "https://picsum.photos/seed/civics/400/250", 20, "Civics", G12, None, false,
    "Understanding the Ethiopian constitution, rights, and responsibilities.", [])
  const C5 := Course("c5", "Amharic Language", "Ato Belayneh Abate",
    "https://picsum.photos/seed/amharic/400/250", 50, "Amharic", G12, None, true,
    "Advanced Amharic grammar and literature.", [])
  const C6 := Course("c6", "Grade 8 General Science", "W/ro Mulu Solomon",
    "https://picsum.photos/seed/science8/400/250", 0, "Science", G8, None, false,
    "Foundational science concepts for middle school students preparing for regional exams.", [])
  const C7 := Course("c7", "Grade 5 Environmental Science", "Ato Kebede Michael",
    "https://picsum.photos/seed/env5/400/250", 0, "Environmental Science", G5, None, false,
    "Learning about the local environment and ecosystems in Ethiopia.", [])

  const MockCourses: seq<Course> := [C1, C2, C3, C4, C5, C6, C7]

  const M1 := Material("m1", "Grade 12 Physics Textbook (MoE)", Pdf, "Physics",
    "Chapter 1: Electromagnetism", None, "2024-03-15", true, English)
  const M2 := Material("m2", "Grade 12 Math National Exam 2015", Pdf, "Mathematics",
    "Past Exams", None, "2024-03-10", false, English)
  const M3 := Material("m3", "Civics & Ethics Summary Notes", Note, "Civics",
    "Constitution", None, "2024-03-18", true, Amharic)
  const M4 := Material("m4", "English Grammar Video Lesson", Video, "English",
    "Tenses", None, "2024-03-12", false, English)

  const MockMaterials: seq<Material> := [M1, M2, M3, M4]
}

=== FILE: json.dfy ===
/** JavaScript values as they travel between the chat page, the HTTP
    endpoint and the room relay. Messages on the chat page are untyped
    objects, so both sides of the relay share this representation. */
module Json {

  /** A JSON-like value. `Undefined` is what a read of an absent property
      yields. Fractional numbers, arrays and nested objects are not modelled. */
  datatype Value = Undefined | Null | Bool(b: bool) | Num(n: int) | Str(s: string)

  /** A plain object: property name to value. */
  type Object = map<string, Value>

  /** Property read `o.key`; an absent property reads as `undefined`. */
  function Get(o: Object, key: string): Value
  {
    if key in o then o[key] else Undefined
  }
}

=== FILE: materials.dfy ===
/** The study-materials library (src/pages/Materials.tsx): a search box and
    type chips filter the catalogue; the grade chips are stored but unused. */
module Materials {
  import opened Types
  import opened Text
  import opened Seqs
  import Constants

  const All := "All"

  /** The type chips. There is no chip for "link". */
  const TypeOptions: seq<string> := [All, "pdf", "video", "note"]
  const GradeOptions: seq<string> := [All, "KG", "Grade 1", "Grade 2", "Grade 3", "Grade 4",
    "Grade 5", "Grade 6", "Grade 7", "Grade 8", "Grade 9", "Grade 10", "Grade 11", "Grade 12"]

  /** The filter controls of the page. */
  datatype LibraryFilter = LibraryFilter(searchQuery: string, selectedType: string, selectedGrade: string)

  const InitialFilter := LibraryFilter("", All, All)

  /** The criteria of `filteredMaterials`: the query occurs, ignoring case,
      in the title or the subject, and the type matches the chosen chip. */
  predicate Keeps(f: LibraryFilter, m: Material)
  {
    && (Contains(Lower(m.title), Lower(f.searchQuery)) || Contains(Lower(m.subject), Lower(f.searchQuery)))
    && (f.selectedType == All || m.kind.Label() == f.selectedType)
  }

  function Keep(f: LibraryFilter): Material -> bool
  {
    m => Keeps(f, m)
  }

  /** `filteredMaterials`: the catalogue items meeting both criteria, in
      catalogue order. */
  function FilteredMaterials(catalogue: seq<Material>, f: LibraryFilter): (r: seq<Material>)
    ensures IsSubsequence(r, catalogue)
    ensures forall i :: 0 <= i < |r| ==> Keeps(f, r[i])
    ensures forall i :: 0 <= i < |catalogue| ==> (catalogue[i] in r <==> Keeps(f, catalogue[i]))
    ensures forall m :: Keeps(f, m) ==> multiset(r)[m] == multiset(catalogue)[m]
  {
    FilterIsSubsequence(Keep(f), catalogue);
    FilterKeepsMultiplicity(Keep(f), catalogue);
    Filter(Keep(f), catalogue)
  }

  /** An empty query with the "All" chip lists the whole catalogue. */
  lemma EmptyQueryListsAll(catalogue: seq<Material>, f: LibraryFilter)
    requires f.searchQuery == "" && f.selectedType == All
    ensures FilteredMaterials(catalogue, f) == catalogue
  {
    forall i | 0 <= i < |catalogue|
      ensures Keep(f)(catalogue[i])
    {
      ContainsEmpty(Lower(catalogue[i].title));
    }
    FilterKeepsAll(Keep(f), catalogue);
  }

  // ---------------------------------------------------------------- the page

  datatype LibraryAction = SearchTyped(query: string) | TypeChosen(kind: string) | GradeChosen(grade: string)

  /** Chips can only be chosen from their option lists. */
  predicate Enabled(a: LibraryAction): (b: bool)
    ensures b && a.TypeChosen? ==> a.kind != Link.Label()
  {
    match a
    case SearchTyped(_) => true
    case TypeChosen(t) => t in TypeOptions
    case GradeChosen(g) => g in GradeOptions
  }

  /** The handlers: each control sets its own field and no other. */
  function Apply(f: LibraryFilter, a: LibraryAction): (r: LibraryFilter)
    ensures !a.SearchTyped? ==> r.searchQuery == f.searchQuery
    ensures !a.TypeChosen? ==> r.selectedType == f.selectedType
    ensures !a.GradeChosen? ==> r.selectedGrade == f.selectedGrade
    ensures a.SearchTyped? ==> r.searchQuery == a.query
    ensures a.TypeChosen? ==> r.selectedType == a.kind
    ensures a.GradeChosen? ==> r.selectedGrade == a.grade
    ensures Enabled(a) && f.selectedType in TypeOptions ==> r.selectedType in TypeOptions
  {
    match a
    case SearchTyped(q) => f.(searchQuery := q)
    case TypeChosen(t) => f.(selectedType := t)
    case GradeChosen(g) => f.(selectedGrade := g)
  }

  function Run(f: LibraryFilter, actions: seq<LibraryAction>): LibraryFilter
    decreases |actions|
  {
    if actions == [] then f else Run(Apply(f, actions[0]), actions[1..])
  }

  /** The grade chips record a choice that the list never reads. */
  lemma GradeChipsNeverChangeTheList(catalogue: seq<Material>, f: LibraryFilter, g: string)
    ensures Apply(f, GradeChosen(g)).selectedGrade == g
    ensures FilteredMaterials(catalogue, Apply(f, GradeChosen(g))) == FilteredMaterials(catalogue, f)
  {
    FilterAgrees(Keep(Apply(f, GradeChosen(g))), Keep(f), catalogue);
  }

  /** From the opening state, the selected type is always one of the chips. */
  lemma {:induction false} SelectedTypeIsAChip(f: LibraryFilter, actions: seq<LibraryAction>)
    requires f.selectedType in TypeOptions
    requires forall i :: 0 <= i < |actions| ==> Enabled(actions[i])
    ensures Run(f, actions).selectedType in TypeOptions
    decreases |actions|
  {
    if actions != [] {
      SelectedTypeIsAChip(Apply(f, actions[0]), actions[1..]);
    }
  }

  /** A link can only be listed under "All": no chip selects it. */
  lemma LinksOnlyUnderAll(catalogue: seq<Material>, actions: seq<LibraryAction>)
    requires forall i :: 0 <= i < |actions| ==> Enabled(actions[i])
    ensures var f := Run(InitialFilter, actions);
      var listed := FilteredMaterials(catalogue, f);
      forall i :: 0 <= i < |listed| && listed[i].kind == Link ==> f.selectedType == All
  {
    SelectedTypeIsAChip(InitialFilter, actions);
  }

  /** The "note" chip on the mock catalogue lists the civics notes only. */
  lemma NoteChipListsOnlyM3()
    ensures FilteredMaterials(Constants.MockMaterials, InitialFilter.(selectedType := "note")) == [Constants.M3]
  {
    NoteFilterKeepsOnlyM3();
  }

  lemma NoteFilterKeepsOnlyM3()
    ensures Filter(Keep(InitialFilter.(selectedType := "note")), Constants.MockMaterials) == [Constants.M3]
  {
    var f := InitialFilter.(selectedType := "note");
    var ms := Constants.MockMaterials;
    ContainsEmpty(Lower(Constants.M3.title));
    assert Keep(f)(ms[2]);
    assert ms == ms[..2] + [ms[2]] + ms[3..];
    FilterKeepsNone(Keep(f), ms[..2]);
    FilterKeepsNone(Keep(f), ms[3..]);
    FilterAppend(Keep(f), ms[..2] + [ms[2]], ms[3..]);
    FilterAppend(Keep(f), ms[..2], [ms[2]]);
  }

  // ---------------------------------------------------------------- icons

  /** The icon of a card: FileText in red, Video in green, Book in yellow,
      and the Link icon in grey as the fallback. */
  datatype Icon = FileTextIcon | VideoIcon | BookIcon | LinkIcon

  /** `getIcon(type)`. */
  function GetIcon(kind: string): Icon
  {
    if kind == "pdf" then FileTextIcon
    else if kind == "video" then VideoIcon
    else if kind == "note" then BookIcon
    else LinkIcon
  }

  /** Each material type gets its own icon, and a string gets the fallback
      icon exactly when it names no type other than "link". */
  lemma IconsDistinguishTypes(s: string)
    ensures forall t1: MaterialType, t2: MaterialType ::
      GetIcon(t1.Label()) == GetIcon(t2.Label()) ==> t1 == t2
    ensures GetIcon(s) == LinkIcon <==> !exists t: MaterialType :: t != Link && t.Label() == s
  {
    if GetIcon(s) != LinkIcon {
      var t := if s == "pdf" then Pdf else if s == "video" then Video else Note;
      assert t != Link && t.Label() == s;
    }
  }
}

=== FILE: relay.dfy ===
/** The room relay of server.ts: `join-room` adds the connection to a
    room, `send-message` stamps the payload with an id and a timestamp and
    emits it as `new-message` to every member of the payload's room. The
    state is the room membership and, per connection, the `new-message`
    events emitted to it so far. */
module Relay {
  import opened Json

  /** A socket id. */
  type ConnId = string

  /** Rooms are keyed by whatever value the client sent as the room name. */
  datatype RelayState = RelayState(rooms: map<Value, set<ConnId>>, sent: map<ConnId, seq<Object>>)

  const Empty := RelayState(map[], map[])

  function Members(r: RelayState, room: Value): set<ConnId>
  {
    if room in r.rooms then r.rooms[room] else {}
  }

  /** The `new-message` events emitted to `c` so far. */
  function Inbox(r: RelayState, c: ConnId): seq<Object>
  {
    if c in r.sent then r.sent[c] else []
  }

  /** `join-room`: the connection joins exactly the room it named, unvalidated;
      no other room changes and nothing is emitted. */
  function Join(r: RelayState, c: ConnId, room: Value): (r': RelayState)
    ensures Members(r', room) == Members(r, room) + {c}
    ensures forall other :: other != room ==> Members(r', other) == Members(r, other)
    ensures forall d :: Inbox(r', d) == Inbox(r, d)
  {
    r.(rooms := r.rooms[room := Members(r, room) + {c}])
  }

  /** Joining twice is joining once. */
  lemma JoinIsIdempotent(r: RelayState, c: ConnId, room: Value)
    ensures Join(Join(r, c, room), c, room) == Join(r, c, room)
  {
  }

  // ---------------------------------------------------------------- message ids

  predicate IsBase36Digit(ch: char)
  {
    '0' <= ch <= '9' || 'a' <= ch <= 'z'
  }

  /** `Math.random().toString(36)`, given the base-36 digits of the
      fraction: "0" for zero, otherwise "0." and the digits. */
  function RandomInBase36(digits: string): string
  {
    if digits == [] then "0" else "0." + digits
  }

  function Clamp(i: int, len: nat): nat
  {
    if i < 0 then 0 else if i > len then len else i
  }

  /** `s.substring(start, end)`: both ends are clamped into the string and
      swapped if they are out of order. */
  function Substring(s: string, start: int, end: int): string
  {
    var a, b := Clamp(start, |s|), Clamp(end, |s|);
    if a <= b then s[a..b] else s[b..a]
  }

  /** The relay-assigned id: at most nine base-36 characters, namely the
      first nine digits of the random fraction (none when it is zero). */
  function GenerateId(digits: string): (id: string)
    requires forall i :: 0 <= i < |digits| ==> IsBase36Digit(digits[i])
    ensures |id| <= 9
    ensures forall i :: 0 <= i < |id| ==> IsBase36Digit(id[i])
    ensures id == digits[..if |digits| < 9 then |digits| else 9]
  {
    var s := RandomInBase36(digits);
    assert digits != [] ==> s[2..] == digits;
    Substring(s, 2, 11)
  }

  // ---------------------------------------------------------------- messages

  /** `{ ...data, id, timestamp }`: every payload field is copied, and the
      relay's id and timestamp replace any the client sent. */
  function BuildMessage(data: Object, id: string, timestamp: string): (m: Object)
    ensures Get(m, "id") == Str(id) && Get(m, "timestamp") == Str(timestamp)
    ensures forall k :: k != "id" && k != "timestamp" ==> Get(m, k) == Get(data, k)
    ensures m.Keys == data.Keys + {"id", "timestamp"}
  {
    data["id" := Str(id)]["timestamp" := Str(timestamp)]
  }

  /** `send-message`: one `new-message` goes to every member of `data.room`,
      the sender included whenever it is a member, and to no one else.
      Membership does not change. The sender is not consulted. */
  function Send(r: RelayState, sender: ConnId, data: Object, digits: string, timestamp: string): (r': RelayState)
    requires forall i :: 0 <= i < |digits| ==> IsBase36Digit(digits[i])
    ensures r'.rooms == r.rooms
    ensures forall c :: c in Members(r, Get(data, "room")) ==>
      Inbox(r', c) == Inbox(r, c) + [BuildMessage(data, GenerateId(digits), timestamp)]
    ensures forall c :: c !in Members(r, Get(data, "room")) ==> Inbox(r', c) == Inbox(r, c)
  {
    var m := BuildMessage(data, GenerateId(digits), timestamp);
    var targets := Members(r, Get(data, "room"));
    r.(sent := map c | c in r.sent.Keys + targets :: if c in targets then Inbox(r, c) + [m] else Inbox(r, c))
  }

  /** A send to a room nobody is in emits nothing. */
  lemma SendToEmptyRoomIsNoOp(r: RelayState, sender: ConnId, data: Object, digits: string, timestamp: string)
    requires forall i :: 0 <= i < |digits| ==> IsBase36Digit(digits[i])
    requires Members(r, Get(data, "room")) == {}
    ensures Send(r, sender, data, digits, timestamp) == r
  {
  }

  /** The echo: a sender that is in the room receives its own message, with
      its payload fields intact and the relay's id and timestamp. */
  lemma SenderReceivesEcho(r: RelayState, sender: ConnId, data: Object, digits: string, timestamp: string)
    requires forall i :: 0 <= i < |digits| ==> IsBase36Digit(digits[i])
    requires sender in Members(r, Get(data, "room"))
    ensures var r' := Send(r, sender, data, digits, timestamp);
      && |Inbox(r', sender)| == |Inbox(r, sender)| + 1
      && var m := Inbox(r', sender)[|Inbox(r, sender)|];
         && (forall k :: k != "id" && k != "timestamp" ==> Get(m, k) == Get(data, k))
         && Get(m, "id") == Str(GenerateId(digits))
         && Get(m, "timestamp") == Str(timestamp)
  {
  }

  /** The scenario of two members and a bystander: both members receive
      "Hello" from Ada, the bystander receives nothing. */
  lemma TwoMembersAndABystander(digits: string, timestamp: string)
    requires forall i :: 0 <= i < |digits| ==> IsBase36Digit(digits[i])
    ensures var room := Str("physics-101");
      var r := Join(Join(Empty, "C1", room), "C2", room);
      var data := map["room" := room, "senderName" := Str("Ada"), "text" := Str("Hello")];
      var r' := Send(r, "C1", data, digits, timestamp);
      && |Inbox(r', "C1")| == 1 && |Inbox(r', "C2")| == 1
      && Get(Inbox(r', "C2")[0], "text") == Str("Hello")
      && Get(Inbox(r', "C2")[0], "senderName") == Str("Ada")
      && Get(Inbox(r', "C1")[0], "timestamp") == Str(timestamp)
      && Inbox(r', "C3") == []
  {
  }
}

=== FILE: seqs.dfy ===
/** `Array.prototype.filter` and the order facts the pages rely on. */
module Seqs {

  /** `xs` can be obtained from `ys` by deleting elements, keeping the
      order of the rest. */
  predicate IsSubsequence<T(==)>(xs: seq<T>, ys: seq<T>)
    decreases |ys|
  {
    if ys == [] then xs == []
    else
      || (xs != [] && xs[0] == ys[0] && IsSubsequence(xs[1..], ys[1..]))
      || IsSubsequence(xs, ys[1..])
  }

  /** `xs.filter(p)`: the elements satisfying `p`, in their original order. */
  function Filter<T(==)>(p: T -> bool, xs: seq<T>): (r: seq<T>)
    ensures |r| <= |xs|
    ensures forall i :: 0 <= i < |r| ==> r[i] in xs && p(r[i])
    ensures forall i :: 0 <= i < |xs| && p(xs[i]) ==> xs[i] in r
  {
    if xs == [] then []
    else if p(xs[0]) then [xs[0]] + Filter(p, xs[1..])
    else Filter(p, xs[1..])
  }

  /** The filtered list is an order-preserving subsequence of the input. */
  lemma {:induction false} FilterIsSubsequence<T>(p: T -> bool, xs: seq<T>)
    ensures IsSubsequence(Filter(p, xs), xs)
  {
    if xs != [] {
      FilterIsSubsequence(p, xs[1..]);
      if p(xs[0]) {
        assert Filter(p, xs)[1..] == Filter(p, xs[1..]);
      }
    }
  }

  /** A predicate every element satisfies filters nothing out. */
  lemma {:induction false} FilterKeepsAll<T>(p: T -> bool, xs: seq<T>)
    requires forall i :: 0 <= i < |xs| ==> p(xs[i])
    ensures Filter(p, xs) == xs
  {
    if xs != [] {
      FilterKeepsAll(p, xs[1..]);
      assert [xs[0]] + xs[1..] == xs;
    }
  }

  /** Filters that agree on the elements of `xs` give the same result. */
  lemma {:induction false} FilterAgrees<T>(p: T -> bool, q: T -> bool, xs: seq<T>)
    requires forall i :: 0 <= i < |xs| ==> p(xs[i]) == q(xs[i])
    ensures Filter(p, xs) == Filter(q, xs)
  {
    if xs != [] {
      FilterAgrees(p, q, xs[1..]);
    }
  }

  /** Strengthening the predicate can only drop elements: the stricter
      result is a subsequence of the looser one. */
  lemma {:induction false} FilterMonotone<T>(p: T -> bool, q: T -> bool, xs: seq<T>)
    requires forall x :: p(x) ==> q(x)
    ensures IsSubsequence(Filter(p, xs), Filter(q, xs))
  {
    if xs != [] {
      FilterMonotone(p, q, xs[1..]);
      var a, b := Filter(p, xs[1..]), Filter(q, xs[1..]);
      if p(xs[0]) {
        assert Filter(p, xs) == [xs[0]] + a && Filter(q, xs) == [xs[0]] + b;
        assert ([xs[0]] + a)[1..] == a && ([xs[0]] + b)[1..] == b;
      } else if q(xs[0]) {
        assert Filter(q, xs) == [xs[0]] + b;
        assert ([xs[0]] + b)[1..] == b;
      }
    }
  }

  /** A predicate no element satisfies filters everything out. */
  lemma FilterKeepsNone<T>(p: T -> bool, xs: seq<T>)
    requires forall i :: 0 <= i < |xs| ==> !p(xs[i])
    ensures Filter(p, xs) == []
  {
  }

  /** Filtering distributes over concatenation. */
  lemma {:induction false} FilterAppend<T>(p: T -> bool, xs: seq<T>, ys: seq<T>)
    ensures Filter(p, xs + ys) == Filter(p, xs) + Filter(p, ys)
  {
    if xs != [] {
      assert (xs + ys)[1..] == xs[1..] + ys;
      FilterAppend(p, xs[1..], ys);
    } else {
      assert xs + ys == ys;
    }
  }

  /** Filtering keeps every occurrence of a kept element: its
      multiplicity in the result equals its multiplicity in the input. */
  lemma {:induction false} FilterKeepsMultiplicity<T>(p: T -> bool, xs: seq<T>)
    ensures forall x :: p(x) ==> multiset(Filter(p, xs))[x] == multiset(xs)[x]
  {
    if xs != [] {
      FilterKeepsMultiplicity(p, xs[1..]);
      assert xs == [xs[0]] + xs[1..];
      assert multiset(xs) == multiset([xs[0]]) + multiset(xs[1..]);
      if p(xs[0]) {
        assert multiset(Filter(p, xs)) == multiset([xs[0]]) + multiset(Filter(p, xs[1..]));
      }
    }
  }
}

=== FILE: settings.dfy ===
/** The settings page (src/pages/Settings.tsx): a dark-mode switch and a
    record of four notification flags, of which only two have a switch. */
module Settings {

  datatype NotificationKey = Email | Push | Sms | Updates

  datatype Notifications = Notifications(email: bool, push: bool, sms: bool, updates: bool) {
    /** `notifications[key]`. */
    function Get(key: NotificationKey): bool
    {
      match key
      case Email => email
      case Push => push
      case Sms => sms
      case Updates => updates
    }
  }

  /** `toggleNotification(key)`: the flag `key` is negated and the other
      three keep their values. */
  function ToggleNotification(n: Notifications, key: NotificationKey): (r: Notifications)
    ensures r.Get(key) == !n.Get(key)
    ensures forall k :: k != key ==> r.Get(k) == n.Get(k)
  {
    match key
    case Email => n.(email := !n.email)
    case Push => n.(push := !n.push)
    case Sms => n.(sms := !n.sms)
    case Updates => n.(updates := !n.updates)
  }

  /** Toggling a flag twice restores the record. */
  lemma ToggleNotificationTwice(n: Notifications, key: NotificationKey)
    ensures ToggleNotification(ToggleNotification(n, key), key) == n
  {
  }

  datatype SettingsState = SettingsState(darkMode: bool, notifications: Notifications)

  const InitialState := SettingsState(false, Notifications(true, true, false, true))

  /** The switches on the page, in the order they are rendered. */
  datatype Switch = Appearance | HighContrast | ExamAlerts | StudyReminders

  /** `onToggle` of each switch. */
  function Press(s: SettingsState, sw: Switch): (r: SettingsState)
    ensures r.notifications.sms == s.notifications.sms
    ensures r.notifications.updates == s.notifications.updates
    ensures sw == Appearance ==> r.darkMode == !s.darkMode && r.notifications == s.notifications
    ensures sw == HighContrast ==> r == s
    ensures sw == ExamAlerts || sw == StudyReminders ==> r.darkMode == s.darkMode
    ensures sw == ExamAlerts ==>
      r.notifications.email == !s.notifications.email && r.notifications.push == s.notifications.push
    ensures sw == StudyReminders ==>
      r.notifications.push == !s.notifications.push && r.notifications.email == s.notifications.email
  {
    match sw
    case Appearance => s.(darkMode := !s.darkMode)
    case HighContrast => s
    case ExamAlerts => s.(notifications := ToggleNotification(s.notifications, Email))
    case StudyReminders => s.(notifications := ToggleNotification(s.notifications, Push))
  }

  /** The `active` flag each switch is drawn with. */
  function Shown(s: SettingsState, sw: Switch): (active: bool)
    ensures sw == Appearance ==> active == s.darkMode
    ensures sw == ExamAlerts ==> active == s.notifications.Get(Email)
    ensures sw == StudyReminders ==> active == s.notifications.Get(Push)
    ensures sw == HighContrast ==> !active
  {
    match sw
    case Appearance => s.darkMode
    case HighContrast => false
    case ExamAlerts => s.notifications.email
    case StudyReminders => s.notifications.push
  }

  function PressAll(s: SettingsState, presses: seq<Switch>): SettingsState
    decreases |presses|
  {
    if presses == [] then s else PressAll(Press(s, presses[0]), presses[1..])
  }

  /** Whatever the user presses, "sms" and "updates" keep the values they
      start with. */
  lemma {:induction false} UnwiredFlagsKeepInitialValues(presses: seq<Switch>)
    ensures PressAll(InitialState, presses).notifications.sms == false
    ensures PressAll(InitialState, presses).notifications.updates == true
  {
    PressAllKeepsUnwired(InitialState, presses);
  }

  lemma {:induction false} PressAllKeepsUnwired(s: SettingsState, presses: seq<Switch>)
    ensures PressAll(s, presses).notifications.sms == s.notifications.sms
    ensures PressAll(s, presses).notifications.updates == s.notifications.updates
    decreases |presses|
  {
    if presses != [] {
      PressAllKeepsUnwired(Press(s, presses[0]), presses[1..]);
    }
  }

  /** Each switch that has an effect shows the value it flips: pressing it
      inverts what it displays. */
  lemma PressInvertsDisplay(s: SettingsState, sw: Switch)
    requires sw != HighContrast
    ensures Shown(Press(s, sw), sw) == !Shown(s, sw)
  {
  }
}

=== FILE: text.dfy ===
/** The string operations the pages rely on: `toLowerCase`, `includes`
    and `trim`, in the form they take on JavaScript strings. */
module Text {

  /** Lower-casing of one character. Only the ASCII letters are mapped;
      full Unicode case mapping is not modelled. */
  function LowerChar(c: char): char
  {
    if 'A' <= c <= 'Z' then (c as int + 32) as char else c
  }

  /** `s.toLowerCase()`, character by character. */
  function Lower(s: string): string
  {
    seq(|s|, i requires 0 <= i < |s| => LowerChar(s[i]))
  }

  /** Lower-casing keeps the length and leaves no ASCII capital behind,
      so lowering a second time changes nothing. */
  lemma LowerIsIdempotent(s: string)
    ensures |Lower(s)| == |s|
    ensures forall i :: 0 <= i < |s| ==> !('A' <= Lower(s)[i] <= 'Z')
    ensures Lower(Lower(s)) == Lower(s)
  {
  }

  predicate StartsWith(s: string, prefix: string)
  {
    |prefix| <= |s| && s[..|prefix|] == prefix
  }

  /** `s.includes(needle)`: the needle occurs somewhere in `s`. */
  predicate Contains(s: string, needle: string)
    decreases |s|
  {
    StartsWith(s, needle) || (|s| > 0 && Contains(s[1..], needle))
  }

  /** `includes` holds exactly when the needle is a slice of `s` at some
      offset; in particular the empty needle occurs in every string. */
  lemma {:induction false} ContainsIffOccurrence(s: string, needle: string)
    ensures Contains(s, needle) <==>
      exists k :: 0 <= k <= |s| && StartsWith(s[k..], needle)
    decreases |s|
  {
    if Contains(s, needle) {
      if StartsWith(s, needle) {
        assert s[0..] == s;
      } else {
        ContainsIffOccurrence(s[1..], needle);
        var k :| 0 <= k <= |s[1..]| && StartsWith(s[1..][k..], needle);
        assert s[1..][k..] == s[k + 1..];
      }
    }
    if exists k :: 0 <= k <= |s| && StartsWith(s[k..], needle) {
      var k :| 0 <= k <= |s| && StartsWith(s[k..], needle);
      if k == 0 {
        assert s[0..] == s;
      } else {
        assert s[1..][k - 1..] == s[k..];
        ContainsIffOccurrence(s[1..], needle);
      }
    }
  }

  /** Every string includes the empty string. */
  lemma ContainsEmpty(s: string)
    ensures Contains(s, "")
  {
  }

  /** The characters `trim` removes: the ECMAScript WhiteSpace and
      LineTerminator code points. */
  predicate IsWhitespace(c: char)
  {
    || c == ' '
    || '\t' <= c <= '\r'
    || c == '\U{00A0}' || c == '\U{1680}'
    || '\U{2000}' <= c <= '\U{200A}'
    || c == '\U{2028}' || c == '\U{2029}'
    || c == '\U{202F}' || c == '\U{205F}'
    || c == '\U{3000}' || c == '\U{FEFF}'
  }

  /** `s.trimStart()`: the suffix of `s` left after dropping leading white space. */
  function TrimStart(s: string): (r: string)
    ensures |r| <= |s| && r == s[|s| - |r|..]
    ensures r == [] || !IsWhitespace(r[0])
    ensures forall i :: 0 <= i < |s| - |r| ==> IsWhitespace(s[i])
    decreases |s|
  {
    if |s| > 0 && IsWhitespace(s[0]) then TrimStart(s[1..]) else s
  }

  /** `s.trimEnd()`: the prefix of `s` left after dropping trailing white space. */
  function TrimEnd(s: string): (r: string)
    ensures |r| <= |s| && r == s[..|r|]
    ensures r == [] || !IsWhitespace(r[|r| - 1])
    ensures forall i :: |r| <= i < |s| ==> IsWhitespace(s[i])
    decreases |s|
  {
    if |s| > 0 && IsWhitespace(s[|s| - 1]) then TrimEnd(s[..|s| - 1]) else s
  }

  /** `s.trim()`. */
  function Trim(s: string): string
  {
    TrimEnd(TrimStart(s))
  }

  /** `!s.trim()` holds, i.e. the trimmed string is empty, exactly when
      every character of `s` is white space (the empty string included). */
  lemma TrimEmptyIffBlank(s: string)
    ensures Trim(s) == [] <==> forall i :: 0 <= i < |s| ==> IsWhitespace(s[i])
  {
  }
}

=== FILE: types.dfy ===
/** The records of the learning platform (src/types.ts) that the modelled
    pages read. Optional fields become `Option`; string-literal unions
    become enumerations with the label the pages compare against. */
module Types {

  datatype Option<+T> = None | Some(value: T)

  /** `Grade`: kindergarten and grades 1 to 12. */
  datatype Grade = KG | G1 | G2 | G3 | G4 | G5 | G6 | G7 | G8 | G9 | G10 | G11 | G12 {

    /** The school year, 0 for kindergarten. */
    function Level(): nat
    {
      match this
      case KG => 0 case G1 => 1 case G2 => 2 case G3 => 3 case G4 => 4
      case G5 => 5 case G6 => 6 case G7 => 7 case G8 => 8 case G9 => 9
      case G10 => 10 case G11 => 11 case G12 => 12
    }

    /** The string the source stores, e.g. "Grade 9". */
    function Label(): string
    {
      match this
      case KG => "KG" case G1 => "Grade 1" case G2 => "Grade 2"
      case G3 => "Grade 3" case G4 => "Grade 4" case G5 => "Grade 5"
      case G6 => "Grade 6" case G7 => "Grade 7" case G8 => "Grade 8"
      case G9 => "Grade 9" case G10 => "Grade 10" case G11 => "Grade 11"
      case G12 => "Grade 12"
    }
  }

  /** `Stream`: the upper-secondary tracks. */
  datatype Stream = NaturalScience | SocialScience | General | Tvet {
    function Label(): string
    {
      match this
      case NaturalScience => "Natural Science"
      case SocialScience => "Social Science"
      case General => "General"
      case Tvet => "TVET"
    }
  }

  datatype Language = English | Amharic | AfaanOromo | Tigrinya

  datatype Lesson = Lesson(
    id: string,
    title: string,
    learningObjectives: seq<string>,
    materials: seq<string>,
    isCompleted: bool)

  datatype Unit = Unit(id: string, title: string, lessons: seq<Lesson>, isCompleted: bool)

  /** `Course`; `progress` is a percentage. */
  datatype Course = Course(
    id: string,
    title: string,
    teacher: string,
    thumbnail: string,
    progress: int,
    subject: string,
    grade: Grade,
    stream: Option<Stream>,
    isFavorite: bool,
    description: string,
    units: seq<Unit>)

  /** `Material.type`. */
  datatype MaterialType = Pdf | Video | Link | Note {
    function Label(): string
    {
      match this
      case Pdf => "pdf"
      case Video => "video"
      case Link => "link"
      case Note => "note"
    }
  }

  /** `Material`; `type` is a keyword here, so the field is `kind`. */
  datatype Material = Material(
    id: string,
    title: string,
    kind: MaterialType,
    subject: string,
    chapter: string,
    unitId: Option<string>,
    date: string,
    isBookmarked: bool,
    language: Language)

  /** The part of `User` the chat page reads. Badges and competency scores
      are not part of this model. */
  datatype User = User(
    id: string,
    name: string,
    email: string,
    grade: Grade,
    stream: Option<Stream>,
    language: Language,
    points: int,
    enrolledClasses: seq<string>)
}
